=== FILE: README.md ===
# py-diffbot client core in Dafny

This project models the decision logic of py-diffbot, a small Python client for
the Diffbot article-extraction API. There are three parts:

- **Cache layer** (`cache.dfy`, module `Cache`). The cache key is the SHA-1
  digest of `url + '?' + urlencode(data)`. The check–fetch–store decorator
  `CacheHandler.wrap` is modelled, and `NullHandler.wrap` is the identity. The
  file backend keeps `<folder>/<key>.txt`; its folder comes from the options
  or the temporary directory. The App Engine memcache backend stores with a
  four-day time-to-live. `cache.handler()` picks the backend from the options
  and the runtime.
- **HTTP layer** (`handlers.dfy`, module `Handlers`). The urlfetch transport
  retries on `DownloadError`; the model has the loop itself
  (`UrlfetchFetch`) and a recursive reference definition (`Retry`), proved
  equal. The urllib transport is single-shot. The model also gives the
  request each transport puts on the wire, the module `handler()` that picks
  the transport, and the handler whose `get` and `post` both go through the
  cache.
- **API client** (`diffbot.dfy`, module `DiffBot`). Covered: token
  resolution in `DiffBot.__init__`; the parameter maps and endpoints of
  `article`, `follow_add` and `follow_read`; the post-processing of an
  article response (`tags` default, `raw_response`); and the command line's
  mapping from `-c` to cache options.

`values.dfy` (module `Values`) holds the shared Python values:

- `Value = False | Missing | Str(s)` with a `Truthy` predicate. The failure
  marker `False`, a memcache `None` and an empty body are all falsy, and the
  model keeps those collisions visible.
- Request parameters, parsed JSON, and the exceptions that escape to a
  caller.
- A `Library` record of the functions the model does not look inside:
  `urlencode`, SHA-1, `json.loads`, and the XML reshaping of the follow
  endpoints.

The network is a finite script of outcomes (`Timeout | OtherError |
Response(status, body)`), and each transport call consumes one. Files and
memcache are maps in a `Stores` value. Every operation is a pure function
from these inputs to a result and the new stores.

Where the code does something other than its documentation or its evident
design suggests, the model follows the code:

- A non-200 response to urlfetch does not use up an attempt. The loop
  fetches again, so repeated 404s are retried without limit
  (`Handlers.RetryIgnoresNon200`). Only urllib fails after one call on a
  404.
- The retry ceiling counts `DownloadError`s (three of them), not total
  attempts.
- The urlfetch transport sends a GET of the bare url. It ignores both the
  method and the parameters, so the token is never sent
  (`Handlers.UrlfetchIgnoresMethodAndData`).
- The HTTP method is not part of the cache key, so a GET and a POST with
  the same url and parameters share one entry
  (`Handlers.RepeatCallHitsCache`).
- The file backend reads the option `cache_folder`; a `cache_dir` option is
  ignored. A relative folder is checked against the library's own
  directory, but the option is stored as given, so the files are later
  opened relative to the process's working directory
  (`Cache.FileCacheFolder`).
- Failure is signalled by `False`, and a caller tests it by truthiness, so
  an empty 200 body looks the same as a failure: it is not cached and
  `article` returns False.
- A response that parses as JSON but not as an object is cached before
  `article` raises on it, so every later `article` call for that url raises
  again from the cache without a request (`DiffBot.ArticleRaiseKeepsCacheWrite`).
- A cache file that exists but cannot be opened for reading raises out of
  `get`, and nothing between the cache and the caller catches it.
- `NullHandler` has no `get`. It is never asked, because its `wrap` returns
  the fetch function itself.

## Model

| member | source | states |
|---|---|---|
| `Cache.KeyIdentifiesRequest` | diffbot/cache.py:48-59 | two requests share a key exactly when their urls are equal and their parameters encode alike, whatever the method (with SHA-1 treated as injective and encodings free of '?') |
| `Cache.FilePathInjective` | diffbot/cache.py:104-105 | distinct relative keys map to distinct `<folder>/<key>.txt` files |
| `Cache.FilePath` | diffbot/cache.py:104-105 | a relative key's file lies under the folder, and every key's file name ends in `<key>.txt` |
| `Cache.FileGet` | diffbot/cache.py:107-112 | a present file is read whole (an empty file reads as the empty string); an absent file gives False; a present file that cannot be opened for reading raises |
| `Cache.FileSet` | diffbot/cache.py:114-123 | an unwritable path reports False and changes nothing; otherwise it reports True, a later get returns exactly the written value (overwriting earlier content) unless the file cannot be read, and no other file changes |
| `Cache.FileCacheFolder` | diffbot/cache.py:91-102 | no `cache_folder` means the temporary directory; a relative folder is checked under the library directory, the raw option is what is kept, and a non-directory raises |
| `Cache.FileCacheFolderKeepsRawOption` | diffbot/cache.py:94-97 | for a relative folder and a non-empty library directory, the folder kept is never the directory that was checked |
| `Cache.CacheGet` | diffbot/cache.py:80-81 | App Engine memcache answers the stored value or None; the file backend answers its file and raises on an unreadable one; the classes without `get` raise |
| `Cache.CacheSet` | diffbot/cache.py:83-84 | App Engine memcache always stores, with the four-day time-to-live; a successful set is read back by get unless the file cannot be read; a failed one changes nothing |
| `Cache.Wrap` | diffbot/cache.py:45-56 | the wrapped function runs at most once; when it does not run the value is the truthy value the backend has stored under the key, no request is sent and nothing changes; when it runs its value and requests are passed on unchanged; a falsy result never changes the stores; it raises exactly for the stub class or an unreadable cache file |
| `Cache.WrapHit` | diffbot/cache.py:49-51 | a truthy stored value is returned and the wrapped function never runs |
| `Cache.WrapMiss` | diffbot/cache.py:52-55 | on a miss the function runs once and its result is returned; a truthy result is read back afterwards when the backend can write and read it, and an unwritable one leaves the stores as they were |
| `Cache.WrapFrame` | diffbot/cache.py:48-55 | a call through the wrapper raises only when its own key's read does, and leaves every other key's entry as it was |
| `Cache.WrapFalsyStoredIsMiss` | diffbot/cache.py:107-112 | an empty cache file counts as a miss and the fetch runs, unless the file cannot be read |
| `Cache.NullWrapIsIdentity` | diffbot/cache.py:65-66 | without a cache every call reaches the wrapped function and stores nothing |
| `Cache.SelectAsWritten` | diffbot/cache.py:131-144 | the backend choice as written raises AttributeError (`NoneHasNoKey`) exactly when the options are None, App Engine is absent and a local memcache client is present |
| `Cache.Select` | diffbot/cache.py:131-144 | the corrected backend choice can only fail with the invalid-folder error |
| `Cache.SelectAsWrittenCrashesWithoutOptions` | diffbot/cache.py:142 | with a local memcache client, no App Engine and no options, the code raises where the corrected choice gives no cache |
| `Cache.SelectAgreesExceptOnCrash` | diffbot/cache.py:131-144 | the correction changes only that crashing case |
| `Cache.SelectFileIsExplicit` | diffbot/cache.py:138-139 | an explicit 'file' handler always gives the file backend or the folder error |
| `Cache.SelectPreference` | diffbot/cache.py:131-144 | file only when asked for; App Engine memcache exactly when available and 'file' not asked for; the local memcache class exactly when there is no App Engine, a client is present, and it was asked for or a server is configured; no cache exactly when none of these applies and 'file' was not asked for; an error only when 'file' was asked for |
| `Handlers.Retry` | diffbot/handlers.py:63-89 | the urlfetch loop never consumes more outcomes than the script holds, sends the same request on every call, and returns only False or content |
| `Handlers.UrlfetchFetch` | diffbot/handlers.py:63-89 | the loop with its attempt counter and stale `result` test computes exactly the reference `Retry` |
| `Handlers.RetryFacts` | diffbot/handlers.py:68-89 | from any attempt: bounded timeouts, every call but the last went round again, content iff the last call got 200, and an early stop only for another exception, a 200 or the last allowed timeout |
| `Handlers.RetryTimeoutBudget` | diffbot/handlers.py:68-79 | at most three calls time out, and a stop right after a timeout with outcomes left is the third timeout, with False |
| `Handlers.RetryLastTimeoutEnds` | diffbot/handlers.py:68-79 | from any attempt, the timeout that uses up the last attempt is the last call made, and if the fetch ends there it returns False |
| `Handlers.RetryStopsAtThirdTimeout` | diffbot/handlers.py:68-79 | no call follows the third timeout, whatever responses came before it, and a fetch ending on it returns False |
| `Handlers.RetryContentOnlyFrom200` | diffbot/handlers.py:85-87 | content is returned iff the last call got status 200, and it is that response's body |
| `Handlers.RetryStopsAtOtherError` | diffbot/handlers.py:80-83 | no call is made after the first non-timeout exception, which returns False |
| `Handlers.RetryStopsOnlyForCause` | diffbot/handlers.py:68-89 | when outcomes remain, the fetch stopped on another exception, a 200 response, or the third timeout |
| `Handlers.RetrySucceedsOnThirdAttempt` | diffbot/handlers.py:68-87 | two timeouts then a 200 give the body after three calls |
| `Handlers.RetryFailsAfterThreeTimeouts` | diffbot/handlers.py:68-89 | three timeouts give False after exactly three calls |
| `Handlers.RetryIgnoresNon200` | diffbot/handlers.py:85-87 | any number of non-200 responses before a 200 still yield content: they use up no attempt |
| `Handlers.UrllibFetch` | diffbot/handlers.py:99-112 | one call sending the given request; the body iff the status is 200, False for any other status or exception |
| `Handlers.UrllibNoRetryOn404` | diffbot/handlers.py:104-106 | a 404 gives False after exactly one call |
| `Handlers.SentRequest` | diffbot/handlers.py:94-103 | urllib GET opens `url + '?' + encoding`, urllib POST opens `url` with the encoding as body; urlfetch sends a GET of the bare url with the 20-second deadline |
| `Handlers.UrllibGetTargetDeterminesRequest` | diffbot/handlers.py:100-101 | a urllib GET target determines the url and the encoded parameters |
| `Handlers.KeyIsDigestOfGetTarget` | diffbot/cache.py:48-59 | the cache key is the SHA-1 digest of the very target a urllib GET opens for the same url and parameters, so a POST, whose target is the bare url, is cached under its GET's key |
| `Handlers.UrlfetchIgnoresMethodAndData` | diffbot/handlers.py:70-75 | the urlfetch request is the same whatever the method and parameters |
| `Handlers.Fetch` | diffbot/handlers.py:63-112 | either transport returns False or a body, sends only the given request, and consumes no more than the script |
| `Handlers.SelectTransport` | diffbot/handlers.py:136-140 | urlfetch exactly when App Engine is available, urllib otherwise |
| `Handlers.NewHttpHandler` | diffbot/handlers.py:40-45 | construction raises AttributeError exactly when the options are None, App Engine is absent and a local memcache client is present; otherwise it succeeds iff the backend choice as written does, and holds that one backend for both `get` and `post` |
| `Handlers.NewHttpHandlerCorrected` | diffbot/handlers.py:40-45 | on the corrected backend choice, construction can only raise for an invalid cache folder |
| `Handlers.NewHttpHandlerCorrectionOnlyAvoidsCrash` | diffbot/cache.py:142 | the corrected construction equals the one as written wherever that does not raise, and gives no cache where it does |
| `Handlers.Call` | diffbot/handlers.py:54-58 | `get`/`post` raise only through the stub class or an unreadable cache file; every request a miss sends is the transport's request for this url, these parameters and this method; a cache hit sends nothing; a run of the fetch returns the transport's value |
| `Handlers.UncachedCallReachesTransport` | diffbot/handlers.py:54-58 | without a cache, `get` and `post` are the transport's fetch, with the stores unchanged |
| `Handlers.UrllibGetAndPostSendDifferently` | diffbot/handlers.py:94-103 | over urllib, `get` sends a GET with the encoding as query string and `post` a POST with the encoding as body, for the same url and parameters |
| `Handlers.RepeatCallHitsCache` | diffbot/handlers.py:42-45 | a truthy response stored by one call is served to a later call with the same url and parameters, GET or POST, with no transport call |
| `DiffBot.ResolveToken` | diffbot/diffbot.py:90-94 | the truthy argument wins, otherwise a truthy `DIFFBOT_TOKEN`; construction raises iff both are falsy, and the kept token is never empty |
| `DiffBot.NewClient` | diffbot/diffbot.py:76-100 | the token check comes first; construction raises AttributeError exactly when the token resolves, the options are None, App Engine is absent and a local memcache client is present; otherwise it succeeds iff the token resolves and the backend choice as written succeeds; the client keeps exactly the resolved token (the argument when truthy, else `DIFFBOT_TOKEN`); the transport is urlfetch iff App Engine |
| `DiffBot.DefaultClientCrashesWithLocalMemcache` | diffbot/diffbot.py:90-100 | `DiffBot(dev_token=...)` without cache options raises on a host with a local memcache client and no App Engine |
| `DiffBot.ArticleArgs` | diffbot/diffbot.py:117-127 | `token` and `url` always; `format` iff it is not 'json'; `comments` iff set; `stats` iff set; no other keys |
| `DiffBot.ArticleCall` | diffbot/diffbot.py:117-131 | a GET of base + 'article' whose parameters are exactly `token` and `url`, `format` when it is not 'json', and `comments`/`stats` flags when set |
| `DiffBot.FollowAddCall` | diffbot/diffbot.py:152-161 | a POST of base + 'add' with exactly `token` and `url` |
| `DiffBot.FollowReadCall` | diffbot/diffbot.py:190-195 | a GET of base + 'dfs/dml/archive' with exactly `id` and no token |
| `DiffBot.Send` | diffbot/diffbot.py:129-131 | an endpoint call goes through the handler method it names: it raises only through the cache read, and every request it sends carries that method, the endpoint and the parameters |
| `DiffBot.Normalise` | diffbot/diffbot.py:139-144 | `tags` kept or defaulted to an empty list, `raw_response` the raw response iff the hack is set and empty otherwise, every other key unchanged, no other key added |
| `DiffBot.Article` | diffbot/diffbot.py:131-149 | False for a falsy response or a JSON parse failure; a parsed non-object raises, with the stores and requests of the cached call kept; a result always carries `tags` and the right `raw_response`; the cache's stores and sent requests pass through on every path past the cache read |
| `DiffBot.ArticleKeepsParsedFields` | diffbot/diffbot.py:139-145 | a parsed object comes back with exactly its keys plus `tags` and `raw_response`, and the other values unchanged |
| `DiffBot.ArticleRaiseKeepsCacheWrite` | diffbot/diffbot.py:131-139 | a truthy response that parses to a non-object is written to the cache (cache.py:53-54) before `has_key` raises, so after the raise the key's entry holds that response |
| `DiffBot.Follow` | diffbot/diffbot.py:162-178 | False for a falsy response or a reshaping failure, otherwise the reshaped dictionary; raises only when the request does, never from the parsing |
| `DiffBot.FollowAdd` | diffbot/diffbot.py:151-178 | raises only through a cache backend without `get` or an unreadable cache file; every request sent is the transport's POST of the add endpoint |
| `DiffBot.FollowRead` | diffbot/diffbot.py:180-220 | raises only through a cache backend without `get` or an unreadable cache file; every request sent is the transport's GET of the archive endpoint |
| `DiffBot.FollowAddPostsOverUrllib` | diffbot/diffbot.py:159-161 | over urllib, `follow_add` sends a POST of the add endpoint with the encoded token and url as body |
| `DiffBot.ArticleGetsOverUrllib` | diffbot/diffbot.py:129-131 | over urllib, `article` sends a GET of the article endpoint with its encoded parameters as query string |
| `DiffBot.CliCacheOptions` | diffbot/diffbot.py:301-304 | 'm'/'memcache' give handler 'memcache', 'f'/'file' give handler 'file', anything else an empty map |
| `DiffBot.CliFileCacheUsesTempDir` | diffbot/diffbot.py:303-308 | a file cache chosen on the command line lives in the temporary directory, both as the backend choice is written and as corrected |
| `DiffBot.CliCacheChoice` | diffbot/diffbot.py:292-308 | a memcache choice gives App Engine memcache, else the local class, else no cache; no choice gives App Engine memcache or no cache; the command line's options never reach the crashing case |
| `DiffBot.RepeatArticleServedFromCache` | diffbot/diffbot.py:129-131 | with a cache that can write and read back the entry, a repeated article request returns the same result with no transport call, including the same raise for a cached non-object response |

## Left out

- Real network, filesystem and memcache I/O. These are a scripted outcome sequence and maps. When the script runs out, a fetch returns False. The real urlfetch loop, fed only non-200 responses, would never end.
- SHA-1 and `urllib.urlencode` are abstract functions, and their internals are not modelled. Python 2 dict ordering leaves the encoding order unspecified anyway.
- `json.loads` is an abstract partial function. The XML reshaping of `follow_add`/`follow_read` (`etree` tree access) is an abstract function that may fail. Its output shape is library glue.
- `Cache.KeyIdentifiesRequest`: distinctness of keys assumes SHA-1 is injective, which holds only with overwhelming probability. Parameter maps are identified only up to their encoding: a `True` flag and the text 'True' encode alike, so they share a key.
- App Engine availability is one `Runtime.gae` flag. The source probes it twice, by importing `google.appengine.api.memcache` in the cache module and `google.appengine.api.urlfetch` in the handlers module; the model assumes the two imports succeed or fail together.
- `MemcacheHandler` defines no `get`/`set`. It is modelled only as a backend whose first cached call raises.
- `Urllib2Handler` is not part of this model. It ignores data and method and is marked unfinished.
- `init_logger`, logging, `set_gae`/`unset_gae`, `http_handler()`/`cache_handler()` accessors, and `main`'s `optparse`/`urlparse` handling and printing are left out. Only the cache-option mapping is kept.
- The `attempts` argument of `DiffBot.__init__` is not modelled. The source never reads it, and the retry count is the fixed `_req_attempts`.
- Request headers (`User-Agent`, `Connection: Close`) are not modelled.
- Memcache expiry and eviction are not modelled. The time-to-live is recorded with each entry, but the backing service enforces it.
- Two file effects are left out. A write that fails after `open` has truncated the file leaves an empty file. Open files are closed implicitly. A write failure is modelled as failing at `open`, with nothing changed.
- Path handling is simplified. Paths are plain strings: no normalisation (`a/` versus `a`) and no resolution of relative paths against the working directory.
- Python values outside the modelled types are left out: a non-string token, a non-string `follow_id` (`str()` of it), JSON floats. The `assert method in ['GET', 'POST']` is discharged by the `Method` type.
- `diffbot/tests.py` is not part of this model. It runs against the live API only.

## Findings

| source | as written | input that shows it | evidently intended | confidence | as-written member | corrected member |
|---|---|---|---|---|---|---|
| diffbot/cache.py:142 | `LOCAL_MEMCACHE and cache_options.has_key('memcache_server')` with `cache_options` defaulting to `None` | `DiffBot(dev_token='t')` on a host without App Engine where `import memcache` succeeds: `handler(None)` calls `None.has_key` and raises AttributeError | absent options have no `memcache_server`, so no cache is used (line 132 already guards `None` for the explicit handler) | high; not executed | `Cache.SelectAsWritten` (shown by `Cache.SelectAsWrittenCrashesWithoutOptions`, propagated by `Handlers.NewHttpHandler` and `DiffBot.NewClient`, shown by `DiffBot.DefaultClientCrashesWithLocalMemcache`) | `Cache.Select` (proved by `Cache.SelectPreference`), used by `Handlers.NewHttpHandlerCorrected` (related by `Handlers.NewHttpHandlerCorrectionOnlyAvoidsCrash`) |

=== FILE: cache.dfy ===
/** The caching layer: how a request is turned into a cache key, the
    backends a key can be stored in, the check-fetch-store decorator that
    wraps a fetch function, and the choice of backend from the options and
    the runtime environment.
 */
module Cache {
  import opened Values

  /** The key a request's response is stored under: the SHA-1 digest of
      `url + '?' + urlencode(data)`. The HTTP method is not an input. */
  function Key(lib: Library, url: string, data: Params): string
  {
    lib.sha1(QueryJoin(url, lib.urlencode(data)))
  }

  /** Time-to-live, in seconds, the App Engine backend passes with every store. */
  const GaeTtl: nat := 60 * 60 * 24 * 4

  /** The cache handler classes. `MemcacheStub` is the local-memcache class,
      which defines neither `get` nor `set`. */
  datatype Backend = NullCache | MemcacheStub | GaeMemcache | FileCache(folder: string)

  /** A memcache entry with the expiry it was stored with. */
  datatype MemEntry = MemEntry(value: string, ttl: nat)

  /** The state the backends read and write: file contents by path, the
      paths that cannot be opened for writing, the paths that cannot be
      opened for reading, and the memcache service's entries. */
  datatype Stores = Stores(
    files: map<string, string>,
    unwritable: set<string>,
    unreadable: set<string>,
    memcache: map<string, MemEntry>)

  predicate Absolute(path: string)
  {
    |path| > 0 && path[0] == '/'
  }

  /** `os.path.join(dir, name)` for two components: an absolute `name`
      replaces `dir`; otherwise a '/' is inserted unless `dir` is empty or
      already ends with one. */
  function Join(dir: string, name: string): string
  {
    if Absolute(name) then name
    else if EndsWithSeparator(dir) then dir + name
    else dir + "/" + name
  }

  /** Whether `Join` appends to `dir` without inserting a separator. */
  predicate EndsWithSeparator(dir: string)
  {
    dir == [] || dir[|dir| - 1] == '/'
  }

  /** The file holding the entry for `key`: `<folder>/<key>.txt`. */
  function FilePath(folder: string, key: string): (p: string)
    ensures !Absolute(key) ==> |folder| + |key| + 4 <= |p| && p[..|folder|] == folder
    ensures |key| + 4 <= |p| && p[|p| - |key| - 4..] == key + ".txt"
  {
    Join(folder, key + ".txt")
  }

  /** Different relative keys give different files in the same folder
      (SHA-1 hex digests are never absolute paths). */
  lemma FilePathInjective(folder: string, k1: string, k2: string)
    requires !Absolute(k1) && !Absolute(k2)
    requires FilePath(folder, k1) == FilePath(folder, k2)
    ensures k1 == k2
  {
    var n1, n2 := k1 + ".txt", k2 + ".txt";
    assert !Absolute(n1) && !Absolute(n2) by {
      if |k1| > 0 { assert n1[0] == k1[0]; }
      if |k2| > 0 { assert n2[0] == k2[0]; }
    }
    var prefix := if EndsWithSeparator(folder) then folder else folder + "/";
    assert FilePath(folder, k1) == prefix + n1;
    assert FilePath(folder, k2) == prefix + n2;
    assert n1 == (prefix + n1)[|prefix|..] == (prefix + n2)[|prefix|..] == n2;
    assert k1 == n1[..|n1| - 4] == n2[..|n2| - 4] == k2;
  }

  /** FileCacheHandler.get: the whole content of the key's file, or False
      when no such file exists. An empty file reads as the empty string. A
      file that exists but cannot be opened for reading raises. */
  function FileGet(folder: string, st: Stores, key: string): (r: Result<Value>)
    ensures r.Err? <==> FilePath(folder, key) in st.files && FilePath(folder, key) in st.unreadable
    ensures r.Err? ==> r.error == UnreadableCacheFile(FilePath(folder, key))
    ensures r.Ok? ==> (r.value.Str? <==> FilePath(folder, key) in st.files)
    ensures r.Ok? && r.value.Str? ==> r.value.s == st.files[FilePath(folder, key)]
    ensures r.Ok? && !r.value.Str? ==> r.value == False
  {
    var path := FilePath(folder, key);
    if path !in st.files then Ok(False)
    else if path in st.unreadable then Err(UnreadableCacheFile(path))
    else Ok(Str(st.files[path]))
  }

  /** FileCacheHandler.set: writes the whole file, overwriting earlier
      content, and reports True; a path that cannot be opened for writing
      reports False and leaves everything as it was. */
  function FileSet(folder: string, st: Stores, key: string, value: string): (r: (bool, Stores))
    ensures r.0 <==> FilePath(folder, key) !in st.unwritable
    ensures r.0 && FilePath(folder, key) !in st.unreadable ==> FileGet(folder, r.1, key) == Ok(Str(value))
    ensures r.0 && FilePath(folder, key) in st.unreadable ==> FileGet(folder, r.1, key).Err?
    ensures !r.0 ==> r.1 == st
    ensures r.1.unwritable == st.unwritable && r.1.unreadable == st.unreadable && r.1.memcache == st.memcache
    ensures forall p :: p != FilePath(folder, key) ==>
              (p in r.1.files <==> p in st.files) && (p in st.files ==> r.1.files[p] == st.files[p])
  {
    var path := FilePath(folder, key);
    if path in st.unwritable then (false, st)
    else (true, st.(files := st.files[path := value]))
  }

  /** FileCacheHandler construction. Without a `cache_folder` option the
      system temporary directory is used. A relative folder is checked for
      being a directory relative to the library's own directory, but the
      option exactly as given is what is kept. A folder that is not a
      directory raises. */
  function FileCacheFolder(options: Option<map<string, string>>, rt: Runtime, dirs: set<string>): (r: Result<string>)
    ensures options.None? || "cache_folder" !in options.value ==> r == Ok(rt.tempDir)
    ensures options.Some? && "cache_folder" in options.value ==>
              var raw := options.value["cache_folder"];
              var checked := if Absolute(raw) then raw else Join(rt.moduleDir, raw);
              (r.Ok? <==> checked in dirs) &&
              (r.Ok? ==> r.value == raw) &&
              (r.Err? ==> r.error == InvalidCacheFolder(checked))
  {
    if options.Some? && "cache_folder" in options.value then
      var raw := options.value["cache_folder"];
      var checked := if Absolute(raw) then raw else Join(rt.moduleDir, raw);
      if checked in dirs then Ok(raw) else Err(InvalidCacheFolder(checked))
    else
      Ok(rt.tempDir)
  }

  /** Whether the file backend's read of `key` raises: its file exists
      but cannot be opened for reading. */
  predicate Unreadable(b: Backend, st: Stores, key: string)
  {
    b.FileCache? && FilePath(b.folder, key) in st.files && FilePath(b.folder, key) in st.unreadable
  }

  /** The backend's `get`: the two classes without one raise, and so does
      the file backend on an unreadable file. The App Engine memcache
      answers None for an absent key. */
  function CacheGet(b: Backend, st: Stores, key: string): (r: Result<Value>)
    ensures r.Err? <==> b.NullCache? || b.MemcacheStub? || Unreadable(b, st, key)
    ensures r.Err? && b.FileCache? ==> r.error == UnreadableCacheFile(FilePath(b.folder, key))
    ensures b.GaeMemcache? ==> r == Ok(if key in st.memcache then Str(st.memcache[key].value) else Missing)
    ensures b.FileCache? ==> r == FileGet(b.folder, st, key)
  {
    match b
    case NullCache => Err(MissingCacheMethod("get"))
    case MemcacheStub => Err(MissingCacheMethod("get"))
    case GaeMemcache => Ok(if key in st.memcache then Str(st.memcache[key].value) else Missing)
    case FileCache(folder) => FileGet(folder, st, key)
  }

  /** The backend's `set`, reporting whether the value was stored. The App
      Engine backend always stores, with the fixed time-to-live. */
  function CacheSet(b: Backend, st: Stores, key: string, value: string): (r: Result<(bool, Stores)>)
    ensures r.Err? <==> b.NullCache? || b.MemcacheStub?
    ensures b.GaeMemcache? ==> r.Ok? && r.value.0 && key in r.value.1.memcache && r.value.1.memcache[key] == MemEntry(value, GaeTtl)
    ensures r.Ok? && r.value.0 && !(b.FileCache? && FilePath(b.folder, key) in st.unreadable) ==>
              CacheGet(b, r.value.1, key) == Ok(Str(value))
    ensures r.Ok? && !r.value.0 ==> r.value.1 == st
  {
    match b
    case NullCache => Err(MissingCacheMethod("set"))
    case MemcacheStub => Err(MissingCacheMethod("set"))
    case GaeMemcache => Ok((true, st.(memcache := st.memcache[key := MemEntry(value, GaeTtl)])))
    case FileCache(folder) => Ok(FileSet(folder, st, key, value))
  }

  /** A call through a wrapped fetch function: its return value, the
      stores afterwards, how many times the wrapped function ran, and the
      requests that run sent. */
  datatype Reply = Reply(value: Value, stores: Stores, fetches: nat, sent: seq<Request>)

  /** `CacheHandler.wrap(func)(url, data)`, with `NullHandler.wrap` being
      the identity: look the key up, return a truthy stored value as it is,
      otherwise run `func` once, store its result if truthy, and return it.
      A lookup that raises propagates. */
  function Wrap(b: Backend, lib: Library, st: Stores, func: (string, Params) -> FetchRun,
                url: string, data: Params): (r: Result<Reply>)
    ensures r.Err? <==> b.MemcacheStub? || Unreadable(b, st, Key(lib, url, data))
    ensures r.Ok? ==> r.value.fetches <= 1
    ensures r.Ok? && r.value.fetches == 0 ==>
              Truthy(r.value.value) && r.value.sent == [] && r.value.stores == st
    ensures r.Ok? && r.value.fetches == 0 ==> CacheGet(b, st, Key(lib, url, data)) == Ok(r.value.value)
    ensures r.Ok? && r.value.fetches == 1 ==>
              r.value.value == func(url, data).value && r.value.sent == func(url, data).sent
    ensures r.Ok? && !Truthy(r.value.value) ==> r.value.stores == st
  {
    if b.NullCache? then
      var run := func(url, data);
      Ok(Reply(run.value, st, 1, run.sent))
    else
      var key := Key(lib, url, data);
      var stored :- CacheGet(b, st, key);
      if Truthy(stored) then Ok(Reply(stored, st, 0, []))
      else
        var run := func(url, data);
        if Truthy(run.value) then
          var written := CacheSet(b, st, key, run.value.s).value;
          Ok(Reply(run.value, written.1, 1, run.sent))
        else Ok(Reply(run.value, st, 1, run.sent))
  }

  /** A truthy stored value is returned and the wrapped function never runs. */
  lemma WrapHit(b: Backend, lib: Library, st: Stores, func: (string, Params) -> FetchRun,
                url: string, data: Params)
    requires !b.NullCache?
    requires CacheGet(b, st, Key(lib, url, data)).Ok?
    requires Truthy(CacheGet(b, st, Key(lib, url, data)).value)
    ensures Wrap(b, lib, st, func, url, data)
         == Ok(Reply(CacheGet(b, st, Key(lib, url, data)).value, st, 0, []))
  {
  }

  /** Whether a `set` of `key` on this backend succeeds. */
  predicate Writable(b: Backend, st: Stores, key: string)
  {
    b.GaeMemcache? || (b.FileCache? && FilePath(b.folder, key) !in st.unwritable)
  }

  /** Whether a value stored under `key` can be read back. */
  predicate Persists(b: Backend, st: Stores, key: string)
  {
    Writable(b, st, key) && !(b.FileCache? && FilePath(b.folder, key) in st.unreadable)
  }

  /** On a miss the wrapped function runs exactly once and its result is
      returned unchanged; the key's entry then holds that result when it is
      truthy and the backend could store it, and the stores are untouched
      when it is falsy or could not be written. */
  lemma WrapMiss(b: Backend, lib: Library, st: Stores, func: (string, Params) -> FetchRun,
                 url: string, data: Params)
    requires b.GaeMemcache? || b.FileCache?
    requires CacheGet(b, st, Key(lib, url, data)).Ok?
    requires !Truthy(CacheGet(b, st, Key(lib, url, data)).value)
    ensures var r := Wrap(b, lib, st, func, url, data);
            var run := func(url, data);
            var key := Key(lib, url, data);
            && r.Ok?
            && r.value.fetches == 1
            && r.value.value == run.value
            && r.value.sent == run.sent
            && (!Truthy(run.value) ==> r.value.stores == st)
            && (Truthy(run.value) && Persists(b, st, key) ==>
                  CacheGet(b, r.value.stores, key) == Ok(run.value))
            && (Truthy(run.value) && !Writable(b, st, key) ==> r.value.stores == st)
  {
  }

  /** A call through the wrapper raises only when its own lookup does, and
      changes no other key's entry. */
  lemma WrapFrame(b: Backend, lib: Library, st: Stores, func: (string, Params) -> FetchRun,
                  url: string, data: Params, other: string)
    requires b.GaeMemcache? || b.FileCache?
    requires other != Key(lib, url, data)
    requires !Absolute(other) && !Absolute(Key(lib, url, data))
    ensures Wrap(b, lib, st, func, url, data).Ok? <==> !Unreadable(b, st, Key(lib, url, data))
    ensures Wrap(b, lib, st, func, url, data).Ok? ==>
              CacheGet(b, Wrap(b, lib, st, func, url, data).value.stores, other) == CacheGet(b, st, other)
  {
    var key := Key(lib, url, data);
    if b.FileCache? && FilePath(b.folder, other) == FilePath(b.folder, key) {
      FilePathInjective(b.folder, other, key);
    }
  }

  /** An empty cache file, or any other falsy stored value, counts as a
      miss: the wrapped function runs, unless the file cannot be read. */
  lemma WrapFalsyStoredIsMiss(folder: string, lib: Library, st: Stores,
                              func: (string, Params) -> FetchRun, url: string, data: Params)
    requires FilePath(folder, Key(lib, url, data)) in st.files
    requires st.files[FilePath(folder, Key(lib, url, data))] == ""
    ensures Wrap(FileCache(folder), lib, st, func, url, data).Ok? <==>
              FilePath(folder, Key(lib, url, data)) !in st.unreadable
    ensures Wrap(FileCache(folder), lib, st, func, url, data).Ok? ==>
              Wrap(FileCache(folder), lib, st, func, url, data).value.fetches == 1 &&
              Wrap(FileCache(folder), lib, st, func, url, data).value.value == func(url, data).value
  {
  }

  /** `NullHandler.wrap(f)` is `f`: every call reaches the wrapped function
      and nothing is stored. */
  lemma NullWrapIsIdentity(lib: Library, st: Stores, func: (string, Params) -> FetchRun,
                           url: string, data: Params)
    ensures Wrap(NullCache, lib, st, func, url, data)
         == Ok(Reply(func(url, data).value, st, 1, func(url, data).sent))
  {
  }

  /** Requests share a key exactly when they have the same url and the same
      encoded parameters, treating SHA-1 as injective and given encodings
      free of '?'. Different parameter maps with one encoding (a `True`
      flag and the text 'True') share a key. */
  lemma KeyIdentifiesRequest(lib: Library, u1: string, d1: Params, u2: string, d2: Params)
    requires Injective(lib.sha1)
    requires '?' !in lib.urlencode(d1) && '?' !in lib.urlencode(d2)
    ensures Key(lib, u1, d1) == Key(lib, u2, d2) <==> u1 == u2 && lib.urlencode(d1) == lib.urlencode(d2)
  {
    if Key(lib, u1, d1) == Key(lib, u2, d2) {
      QueryJoinInjective(u1, lib.urlencode(d1), u2, lib.urlencode(d2));
    }
  }

  /** The backend chosen by `cache.handler(options)` as the code is
      written: a non-empty options map naming 'memcache' picks App Engine
      memcache if available, else the local memcache class if available;
      naming 'file' picks the file cache; anything else falls through to
      App Engine memcache if available, then the local memcache class if
      the options have a `memcache_server`, else no cache. With a local
      memcache client and no options at all, the `memcache_server` test
      is made on `None` and raises. */
  function SelectAsWritten(options: Option<map<string, string>>, rt: Runtime, dirs: set<string>): (r: Result<Backend>)
    ensures r == Err(NoneHasNoKey) <==> options.None? && !rt.gae && rt.localMemcache
  {
    var explicit := if options.Some? && |options.value| > 0 && "handler" in options.value
                    then Some(options.value["handler"]) else None;
    if explicit == Some("memcache") && rt.gae then Ok(GaeMemcache)
    else if explicit == Some("memcache") && rt.localMemcache then Ok(MemcacheStub)
    else if explicit == Some("file") then
      var folder :- FileCacheFolder(options, rt, dirs);
      Ok(FileCache(folder))
    else if rt.gae then Ok(GaeMemcache)
    else if rt.localMemcache then
      if options.None? then Err(NoneHasNoKey)
      else if "memcache_server" in options.value then Ok(MemcacheStub)
      else Ok(NullCache)
    else Ok(NullCache)
  }

  /** The backend choice with absent options read as having no
      `memcache_server`, which is what the fall-through evidently means. */
  function Select(options: Option<map<string, string>>, rt: Runtime, dirs: set<string>): (r: Result<Backend>)
    ensures r.Err? ==> r.error.InvalidCacheFolder?
  {
    var explicit := if options.Some? && |options.value| > 0 && "handler" in options.value
                    then Some(options.value["handler"]) else None;
    if explicit == Some("memcache") && rt.gae then Ok(GaeMemcache)
    else if explicit == Some("memcache") && rt.localMemcache then Ok(MemcacheStub)
    else if explicit == Some("file") then
      var folder :- FileCacheFolder(options, rt, dirs);
      Ok(FileCache(folder))
    else if rt.gae then Ok(GaeMemcache)
    else if rt.localMemcache && options.Some? && "memcache_server" in options.value then Ok(MemcacheStub)
    else Ok(NullCache)
  }

  /** The folder kept for a relative `cache_folder` is the option as given,
      not the directory that was checked: the two differ whenever the
      library directory is not empty. */
  lemma FileCacheFolderKeepsRawOption(options: map<string, string>, rt: Runtime, dirs: set<string>)
    requires "cache_folder" in options && !Absolute(options["cache_folder"])
    requires rt.moduleDir != ""
    ensures FileCacheFolder(Some(options), rt, dirs).Ok? ==>
              FileCacheFolder(Some(options), rt, dirs).value != Join(rt.moduleDir, options["cache_folder"])
  {
    var raw := options["cache_folder"];
    assert |Join(rt.moduleDir, raw)| > |raw|;
  }

  /** Default construction on a host with a local memcache client and no
      App Engine crashes as written; the corrected choice gives no cache. */
  lemma SelectAsWrittenCrashesWithoutOptions(rt: Runtime, dirs: set<string>)
    requires !rt.gae && rt.localMemcache
    ensures SelectAsWritten(None, rt, dirs) == Err(NoneHasNoKey)
    ensures Select(None, rt, dirs) == Ok(NullCache)
  {
  }

  /** The correction changes nothing except that one crashing case. */
  lemma SelectAgreesExceptOnCrash(options: Option<map<string, string>>, rt: Runtime, dirs: set<string>)
    ensures SelectAsWritten(options, rt, dirs) != Err(NoneHasNoKey) ==>
              SelectAsWritten(options, rt, dirs) == Select(options, rt, dirs)
  {
  }

  /** An explicit 'file' handler always gives the file backend, rooted as
      the folder options say, or the folder error. */
  lemma SelectFileIsExplicit(options: map<string, string>, rt: Runtime, dirs: set<string>)
    requires "handler" in options && options["handler"] == "file"
    ensures var r := Select(Some(options), rt, dirs);
            match FileCacheFolder(Some(options), rt, dirs)
            case Ok(folder) => r == Ok(FileCache(folder))
            case Err(e) => r == Err(e)
  {
  }

  /** The preference order: the file backend only when asked for; App
      Engine memcache whenever it is available and 'file' was not asked
      for; the local memcache class only without App Engine and only when
      asked for or given a server; no cache only when neither applies. */
  lemma SelectPreference(options: Option<map<string, string>>, rt: Runtime, dirs: set<string>)
    ensures var r := Select(options, rt, dirs);
            var explicit := if options.Some? && |options.value| > 0 && "handler" in options.value
                            then Some(options.value["handler"]) else None;
            && (r.Ok? && r.value.FileCache? <==> explicit == Some("file") && r.Ok?)
            && (r == Ok(GaeMemcache) <==> rt.gae && explicit != Some("file"))
            && (r == Ok(MemcacheStub) <==>
                  !rt.gae && rt.localMemcache && explicit != Some("file") &&
                  (explicit == Some("memcache") || (options.Some? && "memcache_server" in options.value)))
            && (r == Ok(NullCache) <==>
                  !rt.gae && explicit != Some("file") &&
                  !(rt.localMemcache &&
                    (explicit == Some("memcache") || (options.Some? && "memcache_server" in options.value))))
            && (r.Err? ==> explicit == Some("file"))
  {
  }
}

=== FILE: diffbot.dfy ===
/** The API client: resolving the developer token, building the request
    for each endpoint, and normalising the article response; plus the
    command line's mapping from its cache option to cache options.
 */
module DiffBot {
  import opened Values
  import opened Cache
  import opened Handlers

  const ApiBase := "http://www.diffbot.com/api/"

  /** A constructed client: its developer token and its HTTP handler. */
  datatype Client = Client(token: string, http: HttpHandler)

  /** An API request: the handler method used, the endpoint, the parameters. */
  datatype ApiCall = ApiCall(verb: Method, endpoint: string, args: Params)

  /** What an endpoint method returns: False, or a dictionary; or the
      exception it raises after its request went through the cache, whose
      effects on the stores stand. */
  datatype ApiResult = Failed | Info(fields: map<string, Json>) | Raised(error: Error)

  /** An endpoint call's result with the stores afterwards and the
      requests its transport calls sent. */
  datatype ApiReply = ApiReply(result: ApiResult, stores: Stores, sent: seq<Request>)

  /** The token the client keeps: the argument when truthy, otherwise the
      `DIFFBOT_TOKEN` environment variable; construction raises when both
      are falsy. */
  function ResolveToken(arg: Option<string>, env: Option<string>): (r: Result<string>)
    ensures r.Ok? <==> TruthyText(arg) || TruthyText(env)
    ensures r.Err? ==> r.error == MissingToken
    ensures r.Ok? ==> r.value != ""
    ensures r.Ok? && TruthyText(arg) ==> r.value == arg.value
    ensures r.Ok? && !TruthyText(arg) ==> Some(r.value) == env
  {
    if TruthyText(arg) then Ok(arg.value)
    else if TruthyText(env) then Ok(env.value)
    else Err(MissingToken)
  }

  /** `DiffBot.__init__`: the token is resolved first, then the HTTP handler
      class is chosen by the runtime and constructed with the cache options,
      so that the backend choice's crash on absent options propagates. */
  function NewClient(cacheOptions: Option<map<string, string>>, devToken: Option<string>,
                     envToken: Option<string>, rt: Runtime, dirs: set<string>): (r: Result<Client>)
    ensures ResolveToken(devToken, envToken).Err? ==> r == Err(MissingToken)
    ensures r.Ok? <==> ResolveToken(devToken, envToken).Ok? && SelectAsWritten(cacheOptions, rt, dirs).Ok?
    ensures r == Err(NoneHasNoKey) <==>
              ResolveToken(devToken, envToken).Ok? && cacheOptions.None? && !rt.gae && rt.localMemcache
    ensures r.Ok? ==> r.value.token == ResolveToken(devToken, envToken).value
    ensures r.Ok? ==> r.value.token != "" && (r.value.http.transport.Urlfetch? <==> rt.gae)
    ensures r.Ok? ==> r.value.http.cache == SelectAsWritten(cacheOptions, rt, dirs).value
  {
    var token :- ResolveToken(devToken, envToken);
    var h :- NewHttpHandler(SelectTransport(rt), cacheOptions, rt, dirs);
    Ok(Client(token, h))
  }

  /** The `article` parameters: `token` and `url` always, `format` unless
      it is 'json', and the `comments` and `stats` flags when set. */
  function ArticleArgs(token: string, url: string, format: string, comments: bool, stats: bool): (a: Params)
    ensures a.Keys <= {"token", "url", "format", "comments", "stats"}
    ensures "token" in a && a["token"] == Text(token)
    ensures "url" in a && a["url"] == Text(url)
    ensures "format" in a <==> format != "json"
    ensures "format" in a ==> a["format"] == Text(format)
    ensures "comments" in a <==> comments
    ensures "stats" in a <==> stats
    ensures forall k :: k in a && k != "token" && k != "url" && k != "format" ==> a[k] == Flag(true)
  {
    var base := map["token" := Text(token), "url" := Text(url)];
    var withFormat := if format != "json" then base["format" := Text(format)] else base;
    var withComments := if comments then withFormat["comments" := Flag(true)] else withFormat;
    if stats then withComments["stats" := Flag(true)] else withComments
  }

  /** The article request: a GET of the article endpoint carrying the
      token, the url, a non-default format and the set flags, and nothing
      else. */
  function ArticleCall(token: string, url: string, format: string, comments: bool, stats: bool): (c: ApiCall)
    ensures c.verb == GET && c.endpoint == ApiBase + "article"
    ensures c.args.Keys == {"token", "url"} + (if format != "json" then {"format"} else {})
                           + (if comments then {"comments"} else {}) + (if stats then {"stats"} else {})
    ensures c.args["token"] == Text(token) && c.args["url"] == Text(url)
    ensures format != "json" ==> c.args["format"] == Text(format)
    ensures comments ==> c.args["comments"] == Flag(true)
    ensures stats ==> c.args["stats"] == Flag(true)
  {
    ApiCall(GET, ApiBase + "article", ArticleArgs(token, url, format, comments, stats))
  }

  /** The follow request: a POST of the add endpoint with just the token
      and the url. */
  function FollowAddCall(token: string, url: string): (c: ApiCall)
    ensures c.verb == POST && c.endpoint == ApiBase + "add"
    ensures c.args.Keys == {"token", "url"}
    ensures c.args["token"] == Text(token) && c.args["url"] == Text(url)
  {
    ApiCall(POST, ApiBase + "add", map["token" := Text(token), "url" := Text(url)])
  }

  /** The read request: a GET of the archive endpoint with just the follow
      id as text, and no token. `followId` is `str(follow_id)`. */
  function FollowReadCall(followId: string): (c: ApiCall)
    ensures c.verb == GET && c.endpoint == ApiBase + "dfs/dml/archive"
    ensures c.args.Keys == {"id"} && c.args["id"] == Text(followId)
  {
    ApiCall(GET, ApiBase + "dfs/dml/archive", map["id" := Text(followId)])
  }

  /** Sending a request through the client's handler with the method the
      endpoint uses; every request a miss puts on the wire carries that
      method, the endpoint and the parameters. */
  function Send(c: Client, lib: Library, st: Stores, script: seq<Outcome>, call: ApiCall): (r: Result<Reply>)
    ensures r.Err? <==> c.http.cache.MemcacheStub? || Unreadable(c.http.cache, st, Key(lib, call.endpoint, call.args))
    ensures r.Ok? ==> |r.value.sent| <= |script|
    ensures r.Ok? ==> forall i :: 0 <= i < |r.value.sent| ==>
                        r.value.sent[i] == SentRequest(c.http.transport, lib, call.endpoint, call.args, call.verb)
  {
    Call(c.http, lib, st, script, call.endpoint, call.args, call.verb)
  }

  /** The article post-processing: `tags` defaults to an empty list, and
      `raw_response` is the raw response when the hack is asked for and
      empty otherwise; every other key is kept. */
  function Normalise(info: map<string, Json>, response: string, dirtyHack: bool): (r: map<string, Json>)
    ensures r.Keys == info.Keys + {"tags", "raw_response"}
    ensures r["tags"] == (if "tags" in info then info["tags"] else JArray([]))
    ensures r["raw_response"] == JString(if dirtyHack then response else "")
    ensures forall k :: k in info && k != "tags" && k != "raw_response" ==> r[k] == info[k]
  {
    var tagged := if "tags" in info then info else info["tags" := JArray([])];
    tagged["raw_response" := JString(if dirtyHack then response else "")]
  }

  /** `article`: False when the response is falsy or does not parse as
      JSON; a parsed value that is not an object raises on its `has_key`,
      after the cache has stored the response; otherwise the normalised
      object. */
  function Article(c: Client, lib: Library, st: Stores, script: seq<Outcome>, url: string,
                   format: string, comments: bool, stats: bool, dirtyHack: bool): (r: Result<ApiReply>)
    ensures var sent := Send(c, lib, st, script, ArticleCall(c.token, url, format, comments, stats));
            && (sent.Err? ==> r == Err(sent.error))
            && (sent.Ok? ==> r.Ok? && r.value.stores == sent.value.stores && r.value.sent == sent.value.sent)
            && (sent.Ok? && !Truthy(sent.value.value) ==> r.value.result == Failed)
            && (sent.Ok? && Truthy(sent.value.value) && lib.parseJson(sent.value.value.s).None? ==>
                  r.value.result == Failed)
            && (r.Ok? && r.value.result.Raised? <==>
                  sent.Ok? && Truthy(sent.value.value) && lib.parseJson(sent.value.value.s).Some? &&
                  !lib.parseJson(sent.value.value.s).value.JObject?)
            && (r.Ok? && r.value.result.Raised? ==> r.value.result.error == NotAnObject)
            && (r.Ok? && r.value.result.Info? ==>
                  sent.Ok? && Truthy(sent.value.value) &&
                  "tags" in r.value.result.fields && "raw_response" in r.value.result.fields &&
                  r.value.result.fields["raw_response"] == JString(if dirtyHack then sent.value.value.s else ""))
  {
    var reply :- Send(c, lib, st, script, ArticleCall(c.token, url, format, comments, stats));
    if !Truthy(reply.value) then Ok(ApiReply(Failed, reply.stores, reply.sent))
    else
      match lib.parseJson(reply.value.s)
      case None => Ok(ApiReply(Failed, reply.stores, reply.sent))
      case Some(JObject(fields)) =>
        Ok(ApiReply(Info(Normalise(fields, reply.value.s, dirtyHack)), reply.stores, reply.sent))
      case Some(_) => Ok(ApiReply(Raised(NotAnObject), reply.stores, reply.sent))
  }

  /** A parsed article object comes back with every parsed key but `tags`
      and `raw_response` unchanged, `tags` kept or defaulted to an empty
      list, and `raw_response` set by the hack flag. */
  lemma ArticleKeepsParsedFields(c: Client, lib: Library, st: Stores, script: seq<Outcome>, url: string,
                                 format: string, comments: bool, stats: bool, dirtyHack: bool)
    requires Send(c, lib, st, script, ArticleCall(c.token, url, format, comments, stats)).Ok?
    requires var v := Send(c, lib, st, script, ArticleCall(c.token, url, format, comments, stats)).value.value;
             Truthy(v) && lib.parseJson(v.s).Some? && lib.parseJson(v.s).value.JObject?
    ensures var v := Send(c, lib, st, script, ArticleCall(c.token, url, format, comments, stats)).value.value;
            var parsed := lib.parseJson(v.s).value.fields;
            var r := Article(c, lib, st, script, url, format, comments, stats, dirtyHack);
            && r.Ok? && r.value.result.Info?
            && r.value.result.fields.Keys == parsed.Keys + {"tags", "raw_response"}
            && r.value.result.fields["tags"] == (if "tags" in parsed then parsed["tags"] else JArray([]))
            && (forall k :: k in parsed && k != "tags" && k != "raw_response" ==>
                  r.value.result.fields[k] == parsed[k])
  {
  }

  /** A truthy article response that parses to something other than an
      object is stored by the cache before `article` raises on it: on a
      miss with a cache that can write and read back the entry, the raise
      comes with the response in the key's entry. */
  lemma ArticleRaiseKeepsCacheWrite(c: Client, lib: Library, st: Stores, script: seq<Outcome>, url: string,
                                    format: string, comments: bool, stats: bool, dirtyHack: bool)
    requires c.http.cache.GaeMemcache? || c.http.cache.FileCache?
    requires var key := Key(lib, ApiBase + "article", ArticleArgs(c.token, url, format, comments, stats));
             CacheGet(c.http.cache, st, key).Ok? && !Truthy(CacheGet(c.http.cache, st, key).value) &&
             Persists(c.http.cache, st, key)
    requires Send(c, lib, st, script, ArticleCall(c.token, url, format, comments, stats)).Ok?
    requires var v := Send(c, lib, st, script, ArticleCall(c.token, url, format, comments, stats)).value.value;
             Truthy(v) && lib.parseJson(v.s).Some? && !lib.parseJson(v.s).value.JObject?
    ensures var key := Key(lib, ApiBase + "article", ArticleArgs(c.token, url, format, comments, stats));
            var v := Send(c, lib, st, script, ArticleCall(c.token, url, format, comments, stats)).value.value;
            var r := Article(c, lib, st, script, url, format, comments, stats, dirtyHack);
            && r.Ok? && r.value.result == Raised(NotAnObject)
            && CacheGet(c.http.cache, r.value.stores, key) == Ok(v)
  {
    var call := ArticleCall(c.token, url, format, comments, stats);
    var t := c.http.transport;
    WrapMiss(c.http.cache, lib, st, (u: string, d: Params) => Fetch(t, script, SentRequest(t, lib, u, d, GET)),
             call.endpoint, call.args);
  }

  /** `follow_add` and `follow_read`: False when the response is falsy or
      the XML reshaping raises, otherwise the reshaped dictionary. */
  function Follow(c: Client, lib: Library, st: Stores, script: seq<Outcome>, call: ApiCall,
                  reshape: string -> Option<map<string, Json>>): (r: Result<ApiReply>)
    ensures var sent := Send(c, lib, st, script, call);
            && (r.Err? <==> sent.Err?)
            && (r.Ok? ==> r.value.stores == sent.value.stores && r.value.sent == sent.value.sent)
            && (r.Ok? ==> (r.value.result.Info? <==> Truthy(sent.value.value) && reshape(sent.value.value.s).Some?))
            && (r.Ok? ==> !r.value.result.Raised?)
            && (r.Ok? && r.value.result.Info? ==> Some(r.value.result.fields) == reshape(sent.value.value.s))
  {
    var reply :- Send(c, lib, st, script, call);
    if !Truthy(reply.value) then Ok(ApiReply(Failed, reply.stores, reply.sent))
    else
      match reshape(reply.value.s)
      case None => Ok(ApiReply(Failed, reply.stores, reply.sent))
      case Some(fields) => Ok(ApiReply(Info(fields), reply.stores, reply.sent))
  }

  /** `follow_add` catches every exception of its parsing; only a cache
      backend without `get`, or a cache file that cannot be read, makes it
      raise. Its requests are POSTs of the add endpoint. */
  function FollowAdd(c: Client, lib: Library, st: Stores, script: seq<Outcome>, url: string): (r: Result<ApiReply>)
    ensures r.Err? <==> c.http.cache.MemcacheStub? ||
                        Unreadable(c.http.cache, st, Key(lib, ApiBase + "add", FollowAddCall(c.token, url).args))
    ensures r.Ok? ==> |r.value.sent| <= |script|
    ensures r.Ok? ==> forall i :: 0 <= i < |r.value.sent| ==>
                        r.value.sent[i] == SentRequest(c.http.transport, lib, ApiBase + "add", FollowAddCall(c.token, url).args, POST)
  {
    Follow(c, lib, st, script, FollowAddCall(c.token, url), lib.reshapeAdd)
  }

  /** `follow_read`, likewise raising only through the cache read. Its
      requests are GETs of the archive endpoint. */
  function FollowRead(c: Client, lib: Library, st: Stores, script: seq<Outcome>, followId: string): (r: Result<ApiReply>)
    ensures r.Err? <==> c.http.cache.MemcacheStub? ||
                        Unreadable(c.http.cache, st, Key(lib, ApiBase + "dfs/dml/archive", FollowReadCall(followId).args))
    ensures r.Ok? ==> |r.value.sent| <= |script|
    ensures r.Ok? ==> forall i :: 0 <= i < |r.value.sent| ==>
                        r.value.sent[i] == SentRequest(c.http.transport, lib, ApiBase + "dfs/dml/archive",
                                                       FollowReadCall(followId).args, GET)
  {
    Follow(c, lib, st, script, FollowReadCall(followId), lib.reshapeRead)
  }

  /** The command line's cache option: 'm' or 'memcache' asks for the
      memcache handler, 'f' or 'file' for the file handler, and anything
      else leaves the cache options empty. */
  function CliCacheOptions(choice: Option<string>): (r: map<string, string>)
    ensures r.Keys <= {"handler"}
    ensures "handler" in r <==> choice in {Some("m"), Some("memcache"), Some("f"), Some("file")}
    ensures "handler" in r ==> (r["handler"] == "memcache" <==> choice in {Some("m"), Some("memcache")})
    ensures "handler" in r ==> (r["handler"] == "file" <==> choice in {Some("f"), Some("file")})
  {
    if choice == Some("m") || choice == Some("memcache") then map["handler" := "memcache"]
    else if choice == Some("f") || choice == Some("file") then map["handler" := "file"]
    else map[]
  }

  /** A client built with no cache options on a host with a local memcache
      client and no App Engine raises, once its token has resolved. */
  lemma DefaultClientCrashesWithLocalMemcache(devToken: Option<string>, envToken: Option<string>,
                                              rt: Runtime, dirs: set<string>)
    requires TruthyText(devToken) || TruthyText(envToken)
    requires !rt.gae && rt.localMemcache
    ensures NewClient(None, devToken, envToken, rt, dirs) == Err(NoneHasNoKey)
  {
  }

  /** Over urllib, `follow_add` posts the token and url as the body of a
      request to the add endpoint. */
  lemma FollowAddPostsOverUrllib(c: Client, lib: Library, st: Stores, script: seq<Outcome>, url: string)
    requires c.http.transport.Urllib?
    ensures var r := FollowAdd(c, lib, st, script, url);
            r.Ok? ==> forall i :: 0 <= i < |r.value.sent| ==>
                        r.value.sent[i] == Request(POST, ApiBase + "add",
                                                   Some(lib.urlencode(FollowAddCall(c.token, url).args)), None)
  {
  }

  /** Over urllib, `article` puts its parameters in the query string of a
      GET of the article endpoint. */
  lemma ArticleGetsOverUrllib(c: Client, lib: Library, st: Stores, script: seq<Outcome>, url: string,
                              format: string, comments: bool, stats: bool, dirtyHack: bool)
    requires c.http.transport.Urllib?
    ensures var r := Article(c, lib, st, script, url, format, comments, stats, dirtyHack);
            var args := ArticleArgs(c.token, url, format, comments, stats);
            r.Ok? ==> forall i :: 0 <= i < |r.value.sent| ==>
                        r.value.sent[i] == Request(GET, QueryJoin(ApiBase + "article", lib.urlencode(args)), None, None)
  {
    var call := ArticleCall(c.token, url, format, comments, stats);
    var r := Article(c, lib, st, script, url, format, comments, stats, dirtyHack);
    if r.Ok? {
      var sent := Send(c, lib, st, script, call);
      assert r.value.sent == sent.value.sent;
      assert SentRequest(Urllib, lib, call.endpoint, call.args, GET)
          == Request(GET, QueryJoin(ApiBase + "article", lib.urlencode(call.args)), None, None);
    }
  }

  /** From the command line, a file cache lives in the temporary directory
      and construction cannot fail for the folder. */
  lemma CliFileCacheUsesTempDir(choice: string, rt: Runtime, dirs: set<string>)
    requires choice == "f" || choice == "file"
    ensures SelectAsWritten(Some(CliCacheOptions(Some(choice))), rt, dirs) == Ok(FileCache(rt.tempDir))
    ensures Select(Some(CliCacheOptions(Some(choice))), rt, dirs) == Ok(FileCache(rt.tempDir))
  {
  }

  /** From the command line, a memcache choice gives App Engine memcache
      under App Engine, and without any cache option the choice is App
      Engine memcache or no cache. The command line always passes a
      dictionary, so the uncorrected selection never crashes for it. */
  lemma CliCacheChoice(choice: Option<string>, rt: Runtime, dirs: set<string>)
    requires choice !in {Some("f"), Some("file")}
    ensures var opts := Some(CliCacheOptions(choice));
            && SelectAsWritten(opts, rt, dirs) == Select(opts, rt, dirs)
            && (choice in {Some("m"), Some("memcache")} ==>
                  Select(opts, rt, dirs) == Ok(if rt.gae then GaeMemcache
                                               else if rt.localMemcache then MemcacheStub else NullCache))
            && (choice !in {Some("m"), Some("memcache")} ==>
                  Select(opts, rt, dirs) == Ok(if rt.gae then GaeMemcache else NullCache))
  {
  }

  /** A client with a working cache answers a repeated article request
      from the cache: same result, no transport call. */
  lemma RepeatArticleServedFromCache(c: Client, lib: Library, st: Stores, s1: seq<Outcome>, s2: seq<Outcome>,
                                     url: string, format: string, comments: bool, stats: bool, dirtyHack: bool)
    requires c.http.cache.GaeMemcache? || c.http.cache.FileCache?
    requires var call := ArticleCall(c.token, url, format, comments, stats);
             Send(c, lib, st, s1, call).Ok? && Truthy(Send(c, lib, st, s1, call).value.value)
    requires Persists(c.http.cache, st, Key(lib, ApiBase + "article", ArticleArgs(c.token, url, format, comments, stats)))
    ensures var first := Article(c, lib, st, s1, url, format, comments, stats, dirtyHack);
            first.Ok? ==>
              var second := Article(c, lib, first.value.stores, s2, url, format, comments, stats, dirtyHack);
              second == Ok(ApiReply(first.value.result, first.value.stores, []))
  {
    var call := ArticleCall(c.token, url, format, comments, stats);
    RepeatCallHitsCache(c.http, lib, st, s1, s2, call.endpoint, call.args, GET, GET);
  }
}

=== FILE: handlers.dfy ===
/** The HTTP layer: the two transports (App Engine urlfetch with its retry
    loop, and single-shot urllib), the request each one sends, and the
    handler that routes `get` and `post` through the cache decorator.

    The network is a finite script of outcomes, consumed one per transport
    call; a fetch that finds the script exhausted returns False.
 */
module Handlers {
  import opened Values
  import opened Cache

  /** What one transport call produces: urlfetch's DownloadError (a
      timeout), any other exception, or a response. */
  datatype Outcome = Timeout | OtherError | Response(status: int, body: string)

  /** `HttpHandler._req_attempts`: the timeouts urlfetch tolerates. */
  const MaxAttempts: nat := 3

  /** The deadline, in seconds, urlfetch passes with every call. */
  const FetchDeadline: nat := 20

  /** The two handler classes the module `handler()` chooses between. */
  datatype Transport = Urlfetch | Urllib

  /** An HTTP handler: its transport and the cache wrapping its `get` and `post`. */
  datatype HttpHandler = HttpHandler(transport: Transport, cache: Backend)

  /** Outcomes that let urlfetch's loop go round again. */
  predicate Continues(o: Outcome)
  {
    o.Timeout? || (o.Response? && o.status != 200)
  }

  /** The number of timeouts in a stretch of the script. */
  function Timeouts(s: seq<Outcome>): nat
  {
    if s == [] then 0 else (if s[0].Timeout? then 1 else 0) + Timeouts(s[1..])
  }

  /** Earlier transport calls, sending `pre`, in front of a run. */
  function Behind(pre: seq<Request>, run: FetchRun): FetchRun
  {
    FetchRun(run.value, pre + run.sent)
  }

  /** The urlfetch loop, from attempt number `attempt` on, every call
      sending `q`: a timeout moves to the next attempt, any other exception
      returns False at once, a 200 response returns its content, and any
      other response goes round again without using up an attempt. */
  function Retry(script: seq<Outcome>, attempt: nat, q: Request): (r: FetchRun)
    ensures |r.sent| <= |script|
    ensures forall i :: 0 <= i < |r.sent| ==> r.sent[i] == q
    ensures r.value == False || r.value.Str?
    decreases |script|
  {
    if attempt > MaxAttempts || script == [] then FetchRun(False, [])
    else match script[0]
      case Timeout => Behind([q], Retry(script[1..], attempt + 1, q))
      case OtherError => FetchRun(False, [q])
      case Response(status, body) =>
        if status == 200 then FetchRun(Str(body), [q])
        else Behind([q], Retry(script[1..], attempt, q))
  }

  /** `UrlfetchHandler.fetch`, loop for loop. `last` is the response of the
      latest call that produced one; it is tested after every call, as
      `UrlfetchHandler.fetch` tests `result`, and can only be a non-200
      response when the test does not return. */
  method UrlfetchFetch(script: seq<Outcome>, q: Request) returns (content: Value, sent: seq<Request>)
    ensures FetchRun(content, sent) == Retry(script, 1, q)
  {
    var attempt := 1;
    var last: Option<Outcome> := None;
    sent := [];
    while attempt <= MaxAttempts
      invariant 1 <= attempt <= MaxAttempts + 1
      invariant |sent| <= |script|
      invariant last.None? || (last.value.Response? && last.value.status != 200)
      invariant Retry(script, 1, q) == Behind(sent, Retry(script[|sent|..], attempt, q))
      decreases MaxAttempts + 1 - attempt, |script| - |sent|
    {
      if |sent| == |script| {
        return False, sent;
      }
      var o := script[|sent|];
      assert script[|sent|..][1..] == script[|sent| + 1..];
      sent := sent + [q];
      match o {
        case Timeout =>
          attempt := attempt + 1;
        case OtherError =>
          return False, sent;
        case Response(_, _) =>
          last := Some(o);
      }
      if last.Some? && last.value.status == 200 {
        return Str(last.value.body), sent;
      }
    }
    return False, sent;
  }

  /** Facts about the loop from any attempt number on, proved together. */
  lemma {:induction false} RetryFacts(script: seq<Outcome>, attempt: nat, q: Request)
    requires 1 <= attempt <= MaxAttempts + 1
    ensures var n := |Retry(script, attempt, q).sent|;
            var v := Retry(script, attempt, q).value;
            && Timeouts(script[..n]) <= MaxAttempts + 1 - attempt
            && (forall i :: 0 <= i < n - 1 ==> Continues(script[i]))
            && (v.Str? <==> n > 0 && script[n - 1].Response? && script[n - 1].status == 200)
            && (v.Str? ==> v.s == script[n - 1].body)
            && (n < |script| ==>
                  (n == 0 && attempt == MaxAttempts + 1) ||
                  (n > 0 &&
                   (script[n - 1].OtherError? ||
                    (script[n - 1].Response? && script[n - 1].status == 200) ||
                    (script[n - 1].Timeout? && Timeouts(script[..n]) == MaxAttempts + 1 - attempt))))
    decreases |script|
  {
    var n := |Retry(script, attempt, q).sent|;
    if attempt > MaxAttempts || script == [] {
      assert script[..0] == [];
    } else {
      var rest := script[1..];
      assert script[..n][0] == script[0];
      assert script[..n][1..] == rest[..n - 1];
      match script[0]
      case Timeout =>
        RetryFacts(rest, attempt + 1, q);
        assert forall i :: 1 <= i < n ==> script[i] == rest[i - 1];
      case OtherError =>
      case Response(status, body) =>
        if status != 200 {
          RetryFacts(rest, attempt, q);
          assert forall i :: 1 <= i < n ==> script[i] == rest[i - 1];
        }
    }
  }

  /** The fetch makes at most three calls that time out. */
  lemma RetryTimeoutBudget(script: seq<Outcome>, q: Request)
    ensures Timeouts(script[..|Retry(script, 1, q).sent|]) <= MaxAttempts
    ensures var n := |Retry(script, 1, q).sent|;
            n > 0 && script[n - 1].Timeout? && n < |script| ==>
              Retry(script, 1, q).value == False && Timeouts(script[..n]) == MaxAttempts
  {
    RetryFacts(script, 1, q);
  }

  /** From attempt `attempt` on, the timeout that uses up the last attempt
      ends the fetch with False: no call is made after it. */
  lemma {:induction false} RetryLastTimeoutEnds(script: seq<Outcome>, attempt: nat, q: Request, j: nat)
    requires 1 <= attempt <= MaxAttempts
    requires j < |script| && script[j].Timeout?
    requires Timeouts(script[..j + 1]) == MaxAttempts + 1 - attempt
    ensures |Retry(script, attempt, q).sent| <= j + 1
    ensures |Retry(script, attempt, q).sent| == j + 1 ==> Retry(script, attempt, q).value == False
    decreases |script|
  {
    var rest := script[1..];
    assert script[..j + 1][0] == script[0];
    assert script[..j + 1][1..] == rest[..j];
    match script[0]
    case Timeout =>
      if j > 0 && attempt < MaxAttempts {
        RetryLastTimeoutEnds(rest, attempt + 1, q, j - 1);
      }
    case OtherError =>
    case Response(status, _) =>
      if status != 200 {
        RetryLastTimeoutEnds(rest, attempt, q, j - 1);
      }
  }

  /** The third timeout ends the fetch with False, whatever came before it:
      no call follows the call that timed out for the third time. */
  lemma RetryStopsAtThirdTimeout(script: seq<Outcome>, q: Request, j: nat)
    requires j < |script| && script[j].Timeout?
    requires Timeouts(script[..j + 1]) == MaxAttempts
    ensures |Retry(script, 1, q).sent| <= j + 1
    ensures |Retry(script, 1, q).sent| == j + 1 ==> Retry(script, 1, q).value == False
  {
    RetryLastTimeoutEnds(script, 1, q, j);
  }

  /** Content comes only from a 200 response, the last call made; every
      earlier call timed out or got another status. */
  lemma RetryContentOnlyFrom200(script: seq<Outcome>, q: Request)
    ensures var n := |Retry(script, 1, q).sent|;
            var v := Retry(script, 1, q).value;
            && (v.Str? <==> n > 0 && script[n - 1].Response? && script[n - 1].status == 200)
            && (v.Str? ==> v == Str(script[n - 1].body))
            && (forall i :: 0 <= i < n - 1 ==> Continues(script[i]))
  {
    RetryFacts(script, 1, q);
  }

  /** Any other exception ends the fetch with False: no call after the
      first one raising it. */
  lemma RetryStopsAtOtherError(script: seq<Outcome>, q: Request, i: nat)
    requires i < |script| && script[i].OtherError?
    ensures |Retry(script, 1, q).sent| <= i + 1
    ensures |Retry(script, 1, q).sent| == i + 1 ==> Retry(script, 1, q).value == False
  {
    RetryFacts(script, 1, q);
  }

  /** The fetch stops early only for a reason: another exception, a 200
      response, or the third timeout. */
  lemma RetryStopsOnlyForCause(script: seq<Outcome>, q: Request)
    ensures var n := |Retry(script, 1, q).sent|;
            n < |script| ==>
              n > 0 &&
              (script[n - 1].OtherError? ||
               (script[n - 1].Response? && script[n - 1].status == 200) ||
               (script[n - 1].Timeout? && Timeouts(script[..n]) == MaxAttempts))
  {
    RetryFacts(script, 1, q);
  }

  /** Two timeouts and then a 200 response give that response's content
      after three calls. */
  lemma RetrySucceedsOnThirdAttempt(body: string, rest: seq<Outcome>, q: Request)
    ensures Retry([Timeout, Timeout, Response(200, body)] + rest, 1, q) == FetchRun(Str(body), [q, q, q])
  {
    var s := [Timeout, Timeout, Response(200, body)] + rest;
    assert s[1..][1..] == [Response(200, body)] + rest;
    assert Retry(s[1..][1..], 3, q) == FetchRun(Str(body), [q]);
    assert Retry(s[1..], 2, q) == FetchRun(Str(body), [q, q]);
  }

  /** Three timeouts give False after exactly three calls. */
  lemma RetryFailsAfterThreeTimeouts(rest: seq<Outcome>, q: Request)
    ensures Retry([Timeout, Timeout, Timeout] + rest, 1, q) == FetchRun(False, [q, q, q])
  {
    var s := [Timeout, Timeout, Timeout] + rest;
    assert s[1..][1..][1..] == rest;
    assert Retry(rest, 4, q) == FetchRun(False, []);
    assert Retry(s[1..][1..], 3, q) == FetchRun(False, [q]);
    assert Retry(s[1..], 2, q) == FetchRun(False, [q, q]);
  }

  /** Responses with other statuses use up no attempt: any number of them
      followed by a 200 response still yields content, after one call each. */
  lemma {:induction false} RetryIgnoresNon200(n: nat, status: int, junk: string, body: string, attempt: nat, q: Request)
    requires status != 200
    requires 1 <= attempt <= MaxAttempts
    ensures var r := Retry(seq(n, _ => Response(status, junk)) + [Response(200, body)], attempt, q);
            r.value == Str(body) && |r.sent| == n + 1
  {
    var s := seq(n, _ => Response(status, junk)) + [Response(200, body)];
    if n > 0 {
      RetryIgnoresNon200(n - 1, status, junk, body, attempt, q);
      assert s[1..] == seq(n - 1, _ => Response(status, junk)) + [Response(200, body)];
    }
  }

  /** `UrllibHandler.fetch`: exactly one call, sending `q`; the body of a
      200 response, and False for any other status or any exception. */
  function UrllibFetch(script: seq<Outcome>, q: Request): (r: FetchRun)
    ensures r.sent == (if script == [] then [] else [q])
    ensures r.value.Str? <==> script != [] && script[0].Response? && script[0].status == 200
    ensures r.value.Str? ==> r.value.s == script[0].body
    ensures !r.value.Str? ==> r.value == False
  {
    if script == [] then FetchRun(False, [])
    else match script[0]
      case Response(status, body) => if status == 200 then FetchRun(Str(body), [q]) else FetchRun(False, [q])
      case _ => FetchRun(False, [q])
  }

  /** A 404 answer to urllib is a failure after one call, with no retry. */
  lemma UrllibNoRetryOn404(body: string, rest: seq<Outcome>, q: Request)
    ensures UrllibFetch([Response(404, body)] + rest, q) == FetchRun(False, [q])
  {
  }

  /** The request a transport sends for `fetch(url, data, method)`. urllib
      sends a GET with the encoded parameters as the query and a POST with
      them as the body. urlfetch sends a GET of the bare url, whatever the
      method and parameters, with the fixed deadline. */
  function SentRequest(t: Transport, lib: Library, url: string, data: Params, m: Method): (q: Request)
    ensures t.Urllib? && m.GET? ==>
              q.verb == GET && q.body.None? && q.target == QueryJoin(url, lib.urlencode(data))
    ensures t.Urllib? && m.POST? ==> q.verb == POST && q.target == url && q.body == Some(lib.urlencode(data))
    ensures t.Urlfetch? ==> q.verb == GET && q.target == url && q.body.None? && q.deadline == Some(FetchDeadline)
  {
    match t
    case Urlfetch => Request(GET, url, None, Some(FetchDeadline))
    case Urllib =>
      match m
      case GET => Request(GET, QueryJoin(url, lib.urlencode(data)), None, None)
      case POST => Request(POST, url, Some(lib.urlencode(data)), None)
  }

  /** A urllib GET target determines the url and the encoded parameters
      (the encoding escapes '?'). */
  lemma UrllibGetTargetDeterminesRequest(lib: Library, u1: string, d1: Params, u2: string, d2: Params)
    requires '?' !in lib.urlencode(d1) && '?' !in lib.urlencode(d2)
    requires SentRequest(Urllib, lib, u1, d1, GET) == SentRequest(Urllib, lib, u2, d2, GET)
    ensures u1 == u2 && lib.urlencode(d1) == lib.urlencode(d2)
  {
    QueryJoinInjective(u1, lib.urlencode(d1), u2, lib.urlencode(d2));
  }

  /** The cache key of a call is the SHA-1 digest of the target a urllib
      GET of the same url and parameters opens, whichever method the call
      itself uses. */
  lemma KeyIsDigestOfGetTarget(lib: Library, url: string, data: Params, m: Method)
    ensures Key(lib, url, data) == lib.sha1(SentRequest(Urllib, lib, url, data, GET).target)
    ensures SentRequest(Urllib, lib, url, data, m).target == url + (if m.GET? then "?" + lib.urlencode(data) else "")
  {
  }

  /** urlfetch's request depends on the url alone. */
  lemma UrlfetchIgnoresMethodAndData(lib: Library, url: string, d1: Params, m1: Method, d2: Params, m2: Method)
    ensures SentRequest(Urlfetch, lib, url, d1, m1) == SentRequest(Urlfetch, lib, url, d2, m2)
  {
  }

  /** The transport's `fetch` against the scripted network, every call
      sending `q`. */
  function Fetch(t: Transport, script: seq<Outcome>, q: Request): (r: FetchRun)
    ensures |r.sent| <= |script|
    ensures forall i :: 0 <= i < |r.sent| ==> r.sent[i] == q
    ensures r.value == False || r.value.Str?
  {
    match t
    case Urlfetch => Retry(script, 1, q)
    case Urllib => UrllibFetch(script, q)
  }

  /** The module `handler()`: urlfetch exactly when the App Engine APIs are
      available. */
  function SelectTransport(rt: Runtime): (t: Transport)
    ensures t.Urlfetch? <==> rt.gae
  {
    if rt.gae then Urlfetch else Urllib
  }

  /** `HttpHandler.__init__`: pick the cache backend as `cache.handler` is
      written, so its crash on absent options propagates, and wrap both
      `get` and `post` with it. */
  function NewHttpHandler(t: Transport, options: Option<map<string, string>>, rt: Runtime, dirs: set<string>): (r: Result<HttpHandler>)
    ensures r == Err(NoneHasNoKey) <==> options.None? && !rt.gae && rt.localMemcache
    ensures r.Ok? <==> SelectAsWritten(options, rt, dirs).Ok?
    ensures r.Ok? ==> r.value == HttpHandler(t, SelectAsWritten(options, rt, dirs).value)
  {
    var b :- SelectAsWritten(options, rt, dirs);
    Ok(HttpHandler(t, b))
  }

  /** Handler construction on the corrected backend choice: only an
      invalid cache folder makes it raise. */
  function NewHttpHandlerCorrected(t: Transport, options: Option<map<string, string>>, rt: Runtime,
                                   dirs: set<string>): (r: Result<HttpHandler>)
    ensures r.Err? ==> r.error.InvalidCacheFolder?
    ensures r.Ok? ==> r.value.transport == t
  {
    var b :- Select(options, rt, dirs);
    Ok(HttpHandler(t, b))
  }

  /** The corrected construction agrees with the code as written wherever
      the latter does not crash, and where it crashes gives no cache. */
  lemma NewHttpHandlerCorrectionOnlyAvoidsCrash(t: Transport, options: Option<map<string, string>>,
                                                rt: Runtime, dirs: set<string>)
    ensures NewHttpHandler(t, options, rt, dirs) != Err(NoneHasNoKey) ==>
              NewHttpHandlerCorrected(t, options, rt, dirs) == NewHttpHandler(t, options, rt, dirs)
    ensures NewHttpHandler(t, options, rt, dirs) == Err(NoneHasNoKey) ==>
              NewHttpHandlerCorrected(t, options, rt, dirs) == Ok(HttpHandler(t, NullCache))
  {
    SelectAgreesExceptOnCrash(options, rt, dirs);
    if options.None? && !rt.gae && rt.localMemcache {
      SelectAsWrittenCrashesWithoutOptions(rt, dirs);
    }
  }

  /** The handler's `get` or `post`: `fetch(url, data, method)` behind the
      handler's cache. Every request a miss sends is the transport's
      request for this url, these parameters and this method. */
  function Call(h: HttpHandler, lib: Library, st: Stores, script: seq<Outcome>,
                url: string, data: Params, m: Method): (r: Result<Reply>)
    ensures r.Err? <==> h.cache.MemcacheStub? || Unreadable(h.cache, st, Key(lib, url, data))
    ensures r.Ok? ==> |r.value.sent| <= |script|
    ensures r.Ok? ==> forall i :: 0 <= i < |r.value.sent| ==>
                        r.value.sent[i] == SentRequest(h.transport, lib, url, data, m)
    ensures r.Ok? && r.value.fetches == 0 ==> r.value.sent == []
    ensures r.Ok? && r.value.fetches == 1 ==>
              r.value.value == Fetch(h.transport, script, SentRequest(h.transport, lib, url, data, m)).value
  {
    Wrap(h.cache, lib, st, (u: string, d: Params) => Fetch(h.transport, script, SentRequest(h.transport, lib, u, d, m)),
         url, data)
  }

  /** `get(url, data)` is `fetch(url, data, 'GET')` and `post` is the same
      with 'POST': without a cache both reach the transport every time. */
  lemma UncachedCallReachesTransport(t: Transport, lib: Library, st: Stores, script: seq<Outcome>,
                                     url: string, data: Params, m: Method)
    ensures var run := Fetch(t, script, SentRequest(t, lib, url, data, m));
            Call(HttpHandler(t, NullCache), lib, st, script, url, data, m) == Ok(Reply(run.value, st, 1, run.sent))
  {
    NullWrapIsIdentity(lib, st, (u: string, d: Params) => Fetch(t, script, SentRequest(t, lib, u, d, m)), url, data);
  }

  /** Over urllib the method reaches the wire: the same url and parameters
      are sent as a GET with a query string by `get` and as a POST with a
      body by `post`. */
  lemma UrllibGetAndPostSendDifferently(lib: Library, st: Stores, body: string, url: string, data: Params)
    ensures var h := HttpHandler(Urllib, NullCache);
            var script := [Response(200, body)];
            && Call(h, lib, st, script, url, data, GET)
               == Ok(Reply(Str(body), st, 1, [Request(GET, QueryJoin(url, lib.urlencode(data)), None, None)]))
            && Call(h, lib, st, script, url, data, POST)
               == Ok(Reply(Str(body), st, 1, [Request(POST, url, Some(lib.urlencode(data)), None)]))
  {
  }

  /** A truthy response stored by one call is served to the next call with
      the same url and parameters, whichever the methods, with no transport
      call: GET and POST share one entry. */
  lemma RepeatCallHitsCache(h: HttpHandler, lib: Library, st: Stores, s1: seq<Outcome>, s2: seq<Outcome>,
                            url: string, data: Params, m1: Method, m2: Method)
    requires h.cache.GaeMemcache? || h.cache.FileCache?
    requires Call(h, lib, st, s1, url, data, m1).Ok?
    requires Truthy(Call(h, lib, st, s1, url, data, m1).value.value)
    requires Persists(h.cache, st, Key(lib, url, data))
    ensures var first := Call(h, lib, st, s1, url, data, m1).value;
            Call(h, lib, first.stores, s2, url, data, m2) == Ok(Reply(first.value, first.stores, 0, []))
  {
    var key := Key(lib, url, data);
    var first := Call(h, lib, st, s1, url, data, m1).value;
    var get := CacheGet(h.cache, st, key);
    if !Truthy(get.value) {
      WrapMiss(h.cache, lib, st, (u: string, d: Params) => Fetch(h.transport, s1, SentRequest(h.transport, lib, u, d, m1)),
               url, data);
    }
    assert CacheGet(h.cache, first.stores, key) == Ok(first.value);
  }
}

=== FILE: values.dfy ===
/** Python values that the client passes between its layers, the exceptions
    that escape to a caller, and stand-ins for the library functions the
    model does not look inside (SHA-1, URL encoding, JSON and XML parsing).
 */
module Values {

  datatype Option<T> = None | Some(value: T)

  /** A call either returns a value or raises one of the exceptions below;
      `:-` propagates the exception. */
  datatype Result<T> = Ok(value: T) | Err(error: Error) {

    predicate IsFailure() {
      Err?
    }

    function PropagateFailure<U>(): Result<U>
      requires Err?
    {
      Err(error)
    }

    function Extract(): T
      requires Ok?
    {
      value
    }
  }

  /** The exceptions that can escape from the modelled code. */
  datatype Error =
    | MissingToken                       // no developer token from the argument or the environment
    | InvalidCacheFolder(path: string)   // the file cache folder is not a directory
    | NoneHasNoKey                       // `has_key` called on `None` options
    | MissingCacheMethod(name: string)   // a cache handler class that defines no get/set
    | NotAnObject                        // the parsed article is not a JSON object
    | UnreadableCacheFile(path: string)  // a cache file exists but opening it for reading fails

  /** What a fetch or a cache lookup hands back: the `False` failure
      marker, `None` (a memcache miss), or a string body. */
  datatype Value = False | Missing | Str(s: string)

  /** Python truthiness of a Value: only a non-empty string is true, so an
      empty body and the failure marker are indistinguishable to a caller
      that tests truthiness. */
  predicate Truthy(v: Value)
  {
    v.Str? && v.s != ""
  }

  /** An optional string argument (a token, an environment variable) is
      truthy when it is present and non-empty. */
  predicate TruthyText(o: Option<string>)
  {
    o.Some? && o.value != ""
  }

  /** A request parameter value: a string, or a flag set to `True`. */
  datatype Arg = Text(s: string) | Flag(b: bool)

  type Params = map<string, Arg>

  /** A parsed JSON document. */
  datatype Json =
    | JNull
    | JBool(b: bool)
    | JNumber(n: int)
    | JString(s: string)
    | JArray(items: seq<Json>)
    | JObject(fields: map<string, Json>)

  datatype Method = GET | POST

  /** A request as put on the wire. */
  datatype Request = Request(verb: Method, target: string, body: Option<string>, deadline: Option<nat>)

  /** The result of running a fetch: what it returned and the requests its
      transport calls sent, one per call, in order. */
  datatype FetchRun = FetchRun(value: Value, sent: seq<Request>)

  /** Library functions the model treats as given: `urllib.urlencode`,
      `hashlib.sha1(..).hexdigest()`, `json.loads` (None when it raises),
      and the XML reshaping of the follow endpoints (None when it raises). */
  datatype Library = Library(
    urlencode: Params -> string,
    sha1: string -> string,
    parseJson: string -> Option<Json>,
    reshapeAdd: string -> Option<map<string, Json>>,
    reshapeRead: string -> Option<map<string, Json>>)

  /** The facts the modules read from the interpreter's environment:
      whether the App Engine APIs import, whether a local memcache client
      imports, the directory of the library's own source, and the
      system's temporary directory. */
  datatype Runtime = Runtime(gae: bool, localMemcache: bool, moduleDir: string, tempDir: string)

  ghost predicate Injective<A(!new), B>(f: A -> B)
  {
    forall x, y :: f(x) == f(y) ==> x == y
  }

  /** `url + '?' + query`, the form a GET target and a cache key input take. */
  function QueryJoin(url: string, query: string): string
  {
    url + "?" + query
  }

  /** In `url + '?' + query` with no '?' in the query, the separator is
      the last '?' of the string. */
  lemma SeparatorIsLast(u: string, q: string)
    requires '?' !in q
    ensures QueryJoin(u, q)[|u|] == '?'
    ensures forall i :: |u| < i < |QueryJoin(u, q)| ==> QueryJoin(u, q)[i] != '?'
  {
    var s := QueryJoin(u, q);
    forall i | |u| < i < |s|
      ensures s[i] != '?'
    {
      assert s[i] == q[i - |u| - 1];
    }
  }

  /** When the query part never contains '?' (URL encoding escapes it), the
      joined string determines both parts. */
  lemma QueryJoinInjective(u1: string, q1: string, u2: string, q2: string)
    requires '?' !in q1 && '?' !in q2
    requires QueryJoin(u1, q1) == QueryJoin(u2, q2)
    ensures u1 == u2 && q1 == q2
  {
    var s := QueryJoin(u1, q1);
    SeparatorIsLast(u1, q1);
    SeparatorIsLast(u2, q2);
    assert |u1| == |u2|;
    assert u1 == s[..|u1|] == u2;
    assert q1 == s[|u1| + 1..] == q2;
  }
}
